=== FILE: README.md ===
# Abridged TCP transport of an MTProto server, in Dafny

This project models the connection front-end of the `mt` MTProto server
(`src/connection/tcp.ts`). It covers two small byte-level state machines:

- **The abridged framing decoder.** This is the `rawData` handler of
  `TCPAbridgedTransport`. Its state is `length` (a signed integer, initially
  1), `buffer` (bytes, initially empty) and `recalculateLength` (initially
  true). Each call appends the chunk and, if a length is pending, does three
  things:
  - strips one leading `0xef`;
  - reads a one-byte short length code `n`, or the marker `0x7f` followed by a
    24-bit little-endian length `L`;
  - adds `4n - 1` or `4L - 4` to `length`.

  The call then emits the whole buffer as a frame if its size equals `length`
  exactly. Module `Abridged` holds the model: `Step(state, chunk)` returns the
  next state and one event (`Silent`, `Emit(frame)` or `RangeError`), and
  `Feed` runs a list of chunks.
- **The transport negotiator.** This is the `socket.on('data')` closure in
  `TCPConnection.start`. The first chunk picks the transport: the abridged
  decoder if the chunk's first byte is `0xef`, none otherwise. With a decoder,
  every chunk is forwarded to it verbatim, the first one whole. Without one,
  every later chunk ends the socket. Module `Negotiation` models this:
  `Step(connection, data)` returns the next state, an action (`Idle`,
  `Forward(bytes)` or `Close`) and the decoder's event.

The model follows the code as written, not the textbook abridged framing:

- The `0xef` strip runs on every length read, not just the first.
- The extended form drops only three bytes, so the top length byte stays in
  the buffer.
- After a frame, the buffer is not cleared and `length` becomes 0.
- Each call reads at most one prefix and emits at most one frame.
- A frame is emitted only on exact size equality.

The lemmas in `AbridgedProperties` prove both halves of this:

- What works: a first short-form frame whose length code is neither `0x7f`
  nor `0xef`, split any way, comes out exactly (`FirstShortFrameRoundTrip`).
- What does not work:
  - a first extended-form frame delivered in one chunk is lost
    (`ExtendedFirstFrameInOneChunkIsLost`);
  - a first extended-form frame split `4L - 4` bytes into its payload comes
    out garbled, as the top length byte plus a truncated payload
    (`ExtendedFirstFrameSplitIsGarbled`);
  - length code `0xef` is decoded only when it shares a chunk with the magic
    byte (`MagicLengthCodeDependsOnSplit`);
  - after a non-empty frame, the next length code is read from that frame's
    leading byte;
  - after an empty frame (length code 0), the next frame's own code `n` is
    read against `length = 0`, so `4n - 1` bytes are expected and the frame
    comes out without its last byte, or is lost when that byte arrives in the
    same chunk;
  - `length` can go negative, after which the decoder is silent forever.

Telegram's published description of the MTProto abridged transport differs
from this code in three places:

- The client sends `0xef` once, before its first packet. The code strips a
  leading `0xef` before every length read.
- An extended length `L` (`0x7f` followed by three little-endian bytes)
  announces `L × 4` payload bytes after a four-byte header. The code drops
  only three header bytes and counts the leftover top length byte among the
  payload: on a connection's first frame, where `length` starts at 1, it
  expects `4L - 3` bytes; after a frame, where `length` is 0, it expects
  `4L - 4`.
- Every packet carries its own length header. The code keeps the previous
  frame in its buffer and sets `length` to 0, so the next header is read from
  that old frame.

The published framing uses short codes `0x01`-`0x7e` only, so length code
`0xef` falls outside it.

Bytes are `Bytes.byte` (0..255). `Buffer.concat` is `+`, `slice` is
subsequence, and `readUIntLE` is `Bytes.LittleEndian`. The hex-string
comparisons `toString('hex') == 'ef'` become byte equality on a non-empty
buffer.

## Model

| member | source | states |
|---|---|---|
| Bytes.LittleEndian | src/connection/tcp.ts:38-41 | the value `readUIntLE` reads from `w` bytes is below `256^w` |
| Bytes.LittleEndianOfEncoding | src/connection/tcp.ts:38 | reading back a w-byte little-endian encoding of v gives v, so `readUIntLE(1, 3)` recovers the 24-bit length a client encoded |
| Bytes.EncodingOfLittleEndian | src/connection/tcp.ts:41 | every byte string is the encoding of the value `readUIntLE` reads from it, and that value fits its width |
| Abridged.StripMagic | src/connection/tcp.ts:23-29 | a buffer that starts with `0xef` loses exactly that one byte; any other buffer is unchanged |
| Abridged.ReadLength | src/connection/tcp.ts:22-48 | the prefix part fails (a read past the end) exactly on an empty buffer; waiting removes at most one byte (the magic); a parsed prefix removes between one and four bytes |
| Abridged.Deliver | src/connection/tcp.ts:50-55 | a frame is emitted iff the buffer size equals `length`; the frame is the whole buffer, which is kept, and the state becomes `length = 0` with a prefix pending; otherwise nothing is emitted and the decoder waits for payload |
| Abridged.Step | src/connection/tcp.ts:19-56 | one call removes at most four bytes; while payload is awaited it consumes nothing and emits iff the size equals `length`; an emitted frame equals the kept buffer, with `length` reset to 0 and a prefix pending; a silent call that leaves a prefix pending leaves `length` unchanged; `RangeError` iff a prefix is pending and buffer plus chunk is empty |
| Abridged.Feed | src/connection/tcp.ts:19-56 | a series of calls yields exactly one event per chunk, so at most one frame per chunk |
| Abridged.StepDropsFromFront | src/connection/tcp.ts:20-42 | the buffer after a call is the old buffer followed by the chunk, minus some bytes from its front: nothing is invented or reordered |
| Abridged.FeedDropsFromFront | src/connection/tcp.ts:19-56 | after any series of calls the buffer is the initial buffer followed by all chunks, minus some bytes from its front |
| AbridgedProperties.MagicOnlyIsDiscarded | src/connection/tcp.ts:22-26 | with a prefix pending and buffer exactly `[0xef]`, the call empties the buffer, emits nothing, and keeps `length` and the pending flag |
| AbridgedProperties.IncompleteExtendedPrefixWaits | src/connection/tcp.ts:32-35 | with a prefix pending and, after any `0xef` strip, `0x7f` plus fewer than three bytes, the call consumes nothing more, emits nothing, and keeps `length` and the pending flag |
| AbridgedProperties.ShortLengthPrefix | src/connection/tcp.ts:40-43 | short form: after an optional `0xef`, a code `n` other than `0x7f` is consumed alone and `length` grows by `4n - 1` |
| AbridgedProperties.ExtendedLengthPrefix | src/connection/tcp.ts:37-39 | extended form: `0x7f` and the 24-bit little-endian `L` make `length` grow by `4L - 4`, and only three bytes are dropped, so the top length byte heads the remaining buffer |
| AbridgedProperties.ParsedPrefixReachesDelivery | src/connection/tcp.ts:47-55 | after a parsed prefix the call goes on to emission with the new length and the rest; the pending flag stays false unless the rest has exactly that length |
| AbridgedProperties.FreshShortFrameExpects4n | src/connection/tcp.ts:40-42 | from the initial `length = 1`, a short code `n` makes the decoder expect exactly `4n` bytes |
| AbridgedProperties.FreshExtendedFrameExpects4vMinus3 | src/connection/tcp.ts:37-39 | from the initial `length = 1`, an extended length `L` makes the decoder expect `4L - 3` bytes, the kept top length byte among them |
| AbridgedProperties.NextPrefixAfterEmptyFrame | src/connection/tcp.ts:41-54 | after an empty frame the buffer is empty and `length` is 0, so the next frame's short code `n` (neither `0xef` nor `0x7f`) makes the decoder expect `4n - 1` bytes |
| AbridgedProperties.StepKeepsLengthInRange | src/connection/tcp.ts:37-54 | one call keeps `length` at 0 or 1 while a prefix is pending and between -4 and `4 * (2^24 - 1) - 3` always |
| AbridgedProperties.FeedKeepsLengthInRange | src/connection/tcp.ts:19-56 | any series of calls from an in-range state keeps `length` in that range |
| AbridgedProperties.InitLengthInRange | src/connection/tcp.ts:9-56 | the initial `length = 1` is in range, so every state reached from a fresh decoder has `length` between -4 and `4 * (2^24 - 1) - 3` |
| AbridgedProperties.NextPrefixComesFromOldFrame | src/connection/tcp.ts:50-54 | after a frame `f` whose first byte is neither `0xef` nor `0x7f` is emitted, the next call reads its length code from that byte, because the buffer was not cleared |
| AbridgedProperties.OvershootIsPermanent | src/connection/tcp.ts:50 | once the buffer is longer than `length` while payload is awaited, every later call is silent and no prefix is ever read again |
| AbridgedProperties.AccumulateToExactLength | src/connection/tcp.ts:50-55 | payload chunks that exactly fill `length` produce silence until the last chunk, which emits everything buffered |
| AbridgedProperties.PrefixThenPayload | src/connection/tcp.ts:47-55 | a call that parses a prefix expecting exactly the bytes still to come, followed by those bytes in any non-empty chunks, is silent until the last call, which emits what followed the prefix |
| AbridgedProperties.FirstShortFrameRoundTrip | src/connection/tcp.ts:20-55 | from a fresh decoder, `[0xef, n] ++ p` with `|p| = 4n` and `n` neither `0x7f` nor `0xef`, split into any non-empty chunks, yields silence and then exactly one frame, `p`, on the last chunk |
| AbridgedProperties.FirstShortFrameWhole | src/connection/tcp.ts:20-55 | the same stream delivered as one chunk emits `p` on that call |
| AbridgedProperties.ExtendedFirstFrameInOneChunkIsLost | src/connection/tcp.ts:37-50 | a first frame sent in one chunk as `0x7f`, three length bytes for `L`, then `4L` payload bytes overshoots `4L - 3` and is never emitted, and every later call on the connection is silent |
| AbridgedProperties.ExtendedFirstFrameSplitIsGarbled | src/connection/tcp.ts:37-55 | for `1 <= L < 2^24`, a first chunk that ends `4L - 4` bytes into the payload of an extended frame emits the top length byte followed by those `4L - 4` bytes |
| AbridgedProperties.MagicLengthCodeWhole | src/connection/tcp.ts:22-55 | `0xef 0xef` and 956 payload bytes in one chunk: the first `0xef` is stripped, the second read as the length code, and the payload is emitted |
| AbridgedProperties.MagicLengthCodeAfterLoneMagic | src/connection/tcp.ts:22-50 | after the magic byte came alone, `0xef` and 956 payload bytes: the `0xef` is stripped again, the payload's first byte becomes the length code, and for a payload whose first byte is not `0x7f` its `4n` expected bytes never match the 955 left, so nothing is emitted |
| AbridgedProperties.MagicLengthCodeAfterLoneMagicExtended | src/connection/tcp.ts:22-55 | the exception: a payload starting `7f ef 00 00` after the lone magic byte is read as an extended header for `L = 239`, and its last 953 bytes, from the `00` on, are emitted |
| AbridgedProperties.MagicLengthCodeDependsOnSplit | src/connection/tcp.ts:22-55 | the stream `0xef 0xef` plus 956 payload bytes yields the payload in one chunk, and, for a payload whose first byte is not `0x7f`, nothing when the first `0xef` arrives alone |
| AbridgedProperties.SilenceHasNoFrames | src/connection/tcp.ts:50-54 | calls that emit nothing contribute no frame |
| AbridgedProperties.OneShortFrameInOneChunk | src/connection/tcp.ts:20-55 | `ef 02 AA BB CC DD 11 22 33 44` in one chunk emits exactly `AA BB CC DD 11 22 33 44` |
| AbridgedProperties.ExtendedFrameInTwoChunksIsSilent | src/connection/tcp.ts:32-50 | `7f 01` then `00 00 99 88 77 66`: the first call waits, the second expects one byte but holds five, and nothing is emitted |
| AbridgedProperties.ExtendedFrameInThreeChunksEmitsLengthByte | src/connection/tcp.ts:32-54 | `7f 01`, then `00 00`, then `99 88 77 66`: the first call waits, the second emits the one-byte frame `00` (the top length byte), and the third reads `00` as a length code and emits nothing |
| AbridgedProperties.SecondShortFrameIsMisread | src/connection/tcp.ts:50-54 | the short frame above in a first chunk, then `02` and the same eight payload bytes (a second frame without the magic byte) in a second: the first is emitted and the second call reads length code `0xAA` from the old frame and emits nothing |
| AbridgedProperties.FrameAfterEmptyFrameLosesLastByte | src/connection/tcp.ts:41-54 | `ef 00`, then `02` and seven payload bytes: the empty frame, then those seven bytes as a frame; with all eight payload bytes in the second chunk, the empty frame and then nothing |
| AbridgedProperties.ZeroLengthCodeTwice | src/connection/tcp.ts:41-54 | code 0 after `0xef` emits an empty frame and leaves `length = 0`; a further code 0 makes `length = -1` |
| AbridgedProperties.NegativeLengthIsPermanent | src/connection/tcp.ts:41-54 | after those two chunks, every further chunk is silent |
| Negotiation.SelectTransport | src/connection/tcp.ts:91-96 | a transport is created iff the negotiation buffer starts with `0xef`, and it is a fresh abridged decoder |
| Negotiation.Step | src/connection/tcp.ts:87-112 | negotiation is finished after any chunk; the negotiation buffer grows only before that; a close happens iff negotiation is over with no transport; bytes are forwarded iff a transport exists afterwards; an existing transport gets each chunk verbatim; when nothing is forwarded nothing is decoded |
| Negotiation.Run | src/connection/tcp.ts:87-112 | one action and one event per chunk; negotiation is over after any chunk, and the negotiation buffer ends up holding only the first chunk |
| Negotiation.FirstChunkChoosesTransport | src/connection/tcp.ts:88-103 | on the first chunk a decoder is created iff the chunk starts with `0xef`; it is then fed the entire chunk, magic byte included; otherwise nothing happens; negotiation ends either way |
| Negotiation.ForwardingIsTransparent | src/connection/tcp.ts:104-106 | with a transport, every later chunk is forwarded unchanged and in order, and the connection's events and decoder state are exactly those of the decoder fed the same chunks |
| Negotiation.UnknownTransportCloses | src/connection/tcp.ts:104-111 | without a transport, every later chunk produces a close, nothing is decoded, and the state does not change |
| Negotiation.UnrecognisedConnection | src/connection/tcp.ts:88-111 | a connection whose first chunk does not start with `0xef` idles on that chunk, closes on every later one, and never yields a frame |
| Negotiation.RecognisedConnection | src/connection/tcp.ts:87-112 | a connection whose first chunk starts with `0xef` decodes exactly what a fresh decoder fed all its chunks decodes, forwarding every chunk whole |
| Negotiation.ConnectionDeliversFirstShortFrame | src/connection/tcp.ts:87-112 | end to end: a client opening with `0xef`, a short code and its payload, split any way, gets exactly that payload as the connection's only frame |

## Left out

- Listening, accepting, and socket `close`/`error`/`end`/`destroy` handling (`src/connection/tcp.ts:74`, `114-125`) are OS socket I/O. A close appears only as the negotiator's `Close` action.
- `EventEmitter` wiring is callback plumbing and is replaced by returned events and actions. This covers `emit`/`on`, the `reader` relay and the `'connected'` event.
- `npmlog` logging calls have no behaviour to verify.
- `length` is a JavaScript `number`. It is modelled as an unbounded integer, which loses nothing: `InitLengthInRange` proves that from a fresh decoder it always stays between -4 and `4 * (2^24 - 1) - 3`, far below 2^53.
- A `RangeError` thrown by `readUIntLE` on an empty buffer becomes the `RangeError` event. Its propagation out of the socket's event handler is not modelled. It happens only for an empty chunk, which a TCP socket does not deliver.
- The negotiation buffer keeps accumulating only before negotiation ends. The code never reads it again, so only its contents are modelled.
- Frames after the first on a connection are not proved to decode correctly, because the code does not do so. `SecondShortFrameIsMisread` and `NextPrefixComesFromOldFrame` show what happens after a non-empty frame, and `NextPrefixAfterEmptyFrame` and `FrameAfterEmptyFrameLosesLastByte` show it after an empty one.
- An extended-form frame is not proved to yield `L × 4` bytes, because the code does not deliver that. `ExtendedFirstFrameInOneChunkIsLost` and `ExtendedFirstFrameSplitIsGarbled` show what happens instead.
- Abridged.Deliver: the emitted frame is an independent value here, while the code emits the `Buffer` it keeps, and `slice` makes views, not copies. The model assumes consumers never write into an emitted frame; one that decrypts it in place would change the bytes the next length is read from, so `NextPrefixComesFromOldFrame` and `SecondShortFrameIsMisread` hold only under that assumption.
- A first short-form frame with length code `0xef` is not proved to decode for every split, because the code does not do so. `MagicLengthCodeDependsOnSplit` shows what happens instead.

=== FILE: abridged.dfy ===
/** The `rawData` handler of `TCPAbridgedTransport`: a decoder that cuts the
    abridged MTProto byte stream into frames. Each call appends a chunk, reads
    at most one length prefix and emits at most one frame; there is no loop. */
module Abridged {
  import opened Bytes

  /** The byte that announces the abridged transport. */
  const Magic: byte := 0xef

  /** The short length code that announces a 3-byte extended length. */
  const ExtendedMarker: byte := 0x7f

  /** The decoder's three fields. `length` is signed: the code adds `4n - 1`
      or `4L - 4` to whatever it holds, and after a frame it holds 0. */
  datatype Decoder = Decoder(length: int, buffer: seq<byte>, recalculateLength: bool)

  /** A fresh decoder: `length = 1`, empty buffer, a length prefix pending. */
  const Init := Decoder(1, [], true)

  /** What one call makes visible: nothing, one emitted frame, or the
      `RangeError` that `readUIntLE(0, 1)` throws on an empty buffer. */
  datatype Event = Silent | Emit(frame: seq<byte>) | RangeError

  datatype StepResult = StepResult(next: Decoder, event: Event)

  /** The outcome of the prefix part of a call (the block guarded by
      `recalculateLength`): return early keeping `buffer`, fail on an empty
      buffer, or a new `length` and what is left after the prefix. */
  datatype Prefix = Wait(buffer: seq<byte>) | OutOfBounds | Parsed(length: int, rest: seq<byte>)

  predicate StartsWith(buf: seq<byte>, b: byte)
  {
    |buf| >= 1 && buf[0] == b
  }

  /** Drops one leading magic byte, if there is one. */
  function StripMagic(buf: seq<byte>): (r: seq<byte>)
    ensures StartsWith(buf, Magic) ==> [Magic] + r == buf
    ensures !StartsWith(buf, Magic) ==> r == buf
  {
    if StartsWith(buf, Magic) then buf[1..] else buf
  }

  /** The prefix part of a call, applied to the concatenated buffer `buf`
      with the decoder's current `length`. */
  function ReadLength(length: int, buf: seq<byte>): (r: Prefix)
    ensures r.OutOfBounds? <==> buf == []
    ensures r.Wait? ==> |buf| - |r.buffer| <= 1
    ensures r.Parsed? ==> 1 <= |buf| - |r.rest| <= 4
  {
    if buf == [Magic] then Wait([])
    else
      var b := StripMagic(buf);
      if |b| < 4 && StartsWith(b, ExtendedMarker) then Wait(b)
      else if b == [] then OutOfBounds
      else if b[0] == ExtendedMarker then Parsed(length + LittleEndian(b[1..4]) * 4 - 4, b[3..])
      else Parsed(length + LittleEndian(b[..1]) * 4 - 1, b[1..])
  }

  /** The emission part of a call: the whole buffer goes out as a frame when
      its size is exactly `length`; the buffer is then kept, `length` becomes
      0 and the next call reads a prefix again. */
  function Deliver(length: int, buf: seq<byte>): (r: StepResult)
    ensures r.event.Emit? <==> |buf| == length
    ensures r.event.Emit? ==> r.event.frame == buf && r.next == Decoder(0, buf, true)
    ensures !r.event.Emit? ==> r.event == Silent && r.next == Decoder(length, buf, false)
  {
    if |buf| == length then StepResult(Decoder(0, buf, true), Emit(buf))
    else StepResult(Decoder(length, buf, false), Silent)
  }

  /** One `rawData` event carrying `chunk`. */
  function Step(s: Decoder, chunk: seq<byte>): (r: StepResult)
    // at most four bytes leave the buffer per call (see `StepDropsFromFront`)
    ensures |s.buffer + chunk| - |r.next.buffer| <= 4
    // while no prefix is pending nothing is consumed and `length` is the target
    ensures !s.recalculateLength ==> r.next.buffer == s.buffer + chunk
    ensures !s.recalculateLength ==> (r.event.Emit? <==> |s.buffer + chunk| == s.length)
    // an emitted frame is the whole buffer, which stays; `length` drops to 0
    ensures r.event.Emit? ==> r.event.frame == r.next.buffer && r.next.length == 0 && r.next.recalculateLength
    // no frame: the decoder is waiting either for a prefix or for payload
    ensures r.event.Silent? && r.next.recalculateLength ==> r.next.length == s.length
    // the read past the end happens only on an empty buffer with a prefix pending
    ensures r.event.RangeError? <==> s.recalculateLength && s.buffer + chunk == []
  {
    var buf := s.buffer + chunk;
    if !s.recalculateLength then Deliver(s.length, buf)
    else
      match ReadLength(s.length, buf)
      case Wait(b) => StepResult(s.(buffer := b), Silent)
      case OutOfBounds => StepResult(s.(buffer := buf), RangeError)
      case Parsed(l, rest) => Deliver(l, rest)
  }

  /** The decoder's state after a series of calls, with one event per call. */
  datatype Trace = Trace(final: Decoder, events: seq<Event>)

  /** Successive `rawData` events carrying `chunks` in order. */
  function Feed(s: Decoder, chunks: seq<seq<byte>>): (t: Trace)
    ensures |t.events| == |chunks|
    decreases |chunks|
  {
    if chunks == [] then Trace(s, [])
    else
      var r := Step(s, chunks[0]);
      var t := Feed(r.next, chunks[1..]);
      Trace(t.final, [r.event] + t.events)
  }

  /** The prefix part only ever drops bytes from the front of the buffer. */
  lemma {:induction false} ReadLengthDropsFromFront(length: int, buf: seq<byte>)
    ensures var r := ReadLength(length, buf);
            && (r.Wait? ==> IsSuffix(r.buffer, buf))
            && (r.Parsed? ==> IsSuffix(r.rest, buf))
  {
    if buf != [Magic] {
      var b := StripMagic(buf);
      var d := |buf| - |b|;
      assert b == buf[d..];
      if b != [] {
        assert b[1..] == buf[d + 1..];
        if |b| >= 4 {
          assert b[3..] == buf[d + 3..];
        }
      }
    }
  }

  /** One call only ever drops bytes from the front of the old buffer
      followed by the chunk: nothing is invented or reordered. */
  lemma {:induction false} StepDropsFromFront(s: Decoder, chunk: seq<byte>)
    ensures IsSuffix(Step(s, chunk).next.buffer, s.buffer + chunk)
  {
    ReadLengthDropsFromFront(s.length, s.buffer + chunk);
  }

  /** Over any series of calls the buffer is what is left of the initial
      buffer followed by all chunks after dropping bytes from its front. */
  lemma {:induction false} FeedDropsFromFront(s: Decoder, chunks: seq<seq<byte>>)
    ensures IsSuffix(Feed(s, chunks).final.buffer, s.buffer + Flatten(chunks))
    decreases |chunks|
  {
    if chunks != [] {
      var r := Step(s, chunks[0]);
      StepDropsFromFront(s, chunks[0]);
      FeedDropsFromFront(r.next, chunks[1..]);
      assert Feed(s, chunks).final == Feed(r.next, chunks[1..]).final;
      SuffixThroughChunk(Feed(s, chunks).final.buffer, r.next.buffer, s.buffer, chunks);
    }
  }

  /** The frames among `events`, in order. */
  function Frames(events: seq<Event>): (r: seq<seq<byte>>)
    ensures |r| <= |events|
  {
    if events == [] then []
    else if events[0].Emit? then [events[0].frame] + Frames(events[1..])
    else Frames(events[1..])
  }

  /** `k` calls that made nothing visible. */
  function Silence(k: nat): (r: seq<Event>)
  {
    seq(k, _ => Silent)
  }
}

=== FILE: abridged_properties.dfy ===
/** What the abridged decoder does, call by call and over whole streams,
    including where it departs from the documented abridged framing. */
module AbridgedProperties {
  import opened Bytes
  import opened Abridged

  /** An optional leading magic byte: the prefix part strips at most one. */
  predicate MagicOrNothing(m: seq<byte>)
  {
    m == [] || m == [Magic]
  }

  // ----- One call -----

  /** A pending prefix whose buffer is only the magic byte: the buffer is
      emptied, nothing is emitted, `length` and the pending flag stay. */
  lemma {:induction false} MagicOnlyIsDiscarded(s: Decoder, chunk: seq<byte>)
    requires s.recalculateLength && s.buffer + chunk == [Magic]
    ensures Step(s, chunk) == StepResult(Decoder(s.length, [], true), Silent)
  {
  }

  /** A pending prefix that starts with the extended marker but has fewer
      than three length bytes behind it: after the magic strip nothing more
      is consumed, nothing is emitted, `length` and the pending flag stay. */
  lemma {:induction false} IncompleteExtendedPrefixWaits(s: Decoder, chunk: seq<byte>, m: seq<byte>, tail: seq<byte>)
    requires s.recalculateLength && MagicOrNothing(m) && |tail| < 3
    requires s.buffer + chunk == m + [ExtendedMarker] + tail
    ensures Step(s, chunk) == StepResult(Decoder(s.length, [ExtendedMarker] + tail, true), Silent)
  {
    assert StripMagic(s.buffer + chunk) == [ExtendedMarker] + tail;
  }

  /** Short form: one length byte `n` is consumed and `4n - 1` is added to
      `length`; the rest of the buffer is what follows `n`. */
  lemma {:induction false} ShortLengthPrefix(length: int, m: seq<byte>, n: byte, rest: seq<byte>)
    requires MagicOrNothing(m) && n != ExtendedMarker && (m == [] ==> n != Magic)
    ensures ReadLength(length, m + [n] + rest) == Parsed(length + 4 * n as int - 1, rest)
  {
    var buf := m + [n] + rest;
    assert StripMagic(buf) == [n] + rest;
    assert StripMagic(buf)[..1] == [n];
    assert LittleEndian([n]) == n as int by {
      assert [n][1..] == [];
    }
  }

  /** Extended form: the marker and the 24-bit little-endian value `v` are
      read and `4v - 4` is added to `length`, but only three bytes are
      dropped, so the top length byte stays at the head of the buffer. */
  lemma {:induction false} ExtendedLengthPrefix(length: int, m: seq<byte>, v: nat, rest: seq<byte>)
    requires MagicOrNothing(m) && v < Pow256(3)
    ensures var e := ToLittleEndian(v, 3);
            ReadLength(length, m + [ExtendedMarker] + e + rest) == Parsed(length + 4 * v - 4, [e[2]] + rest)
  {
    var e := ToLittleEndian(v, 3);
    var buf := m + [ExtendedMarker] + e + rest;
    var b := StripMagic(buf);
    assert b == [ExtendedMarker] + e + rest;
    assert b[1..4] == e;
    assert b[3..] == [e[2]] + rest;
    LittleEndianOfEncoding(v, 3);
  }

  /** With a prefix pending and one parsed, the call goes on to emission with
      the new `length` and what is left after the prefix. */
  lemma {:induction false} ParsedPrefixReachesDelivery(s: Decoder, chunk: seq<byte>)
    requires s.recalculateLength && ReadLength(s.length, s.buffer + chunk).Parsed?
    ensures var p := ReadLength(s.length, s.buffer + chunk);
            Step(s, chunk) == Deliver(p.length, p.rest)
            && !Deliver(p.length, p.rest).next.recalculateLength == (|p.rest| != p.length)
  {
  }

  /** From a fresh decoder the short form expects exactly `4n` bytes. */
  lemma {:induction false} FreshShortFrameExpects4n(m: seq<byte>, n: byte, rest: seq<byte>)
    requires MagicOrNothing(m) && n != ExtendedMarker && (m == [] ==> n != Magic)
    ensures Step(Init, m + [n] + rest) == Deliver(4 * n as int, rest)
  {
    assert Init.buffer + (m + [n] + rest) == m + [n] + rest;
    ShortLengthPrefix(1, m, n, rest);
  }

  /** From a fresh decoder the extended form expects `4v - 3` bytes, and the
      top length byte is counted among them. */
  lemma {:induction false} FreshExtendedFrameExpects4vMinus3(m: seq<byte>, v: nat, rest: seq<byte>)
    requires MagicOrNothing(m) && v < Pow256(3)
    ensures var e := ToLittleEndian(v, 3);
            Step(Init, m + [ExtendedMarker] + e + rest) == Deliver(4 * v - 3, [e[2]] + rest)
  {
    var e := ToLittleEndian(v, 3);
    assert Init.buffer + (m + [ExtendedMarker] + e + rest) == m + [ExtendedMarker] + e + rest;
    ExtendedLengthPrefix(1, m, v, rest);
  }

  /** After a frame, the buffer still holds that frame, so the next call
      reads the next "length prefix" from the old frame's first byte. */
  lemma {:induction false} NextPrefixComesFromOldFrame(f: seq<byte>, chunk: seq<byte>)
    requires |f| >= 1 && f[0] != Magic && f[0] != ExtendedMarker
    ensures Step(Decoder(0, f, true), chunk) == Deliver(4 * f[0] as int - 1, f[1..] + chunk)
  {
    assert f + chunk == [] + [f[0]] + (f[1..] + chunk);
    ShortLengthPrefix(0, [], f[0], f[1..] + chunk);
  }

  /** After an empty frame (length code 0) nothing is kept, so the next
      frame's own code `n` is read, but against `length = 0`: the decoder
      expects `4n - 1` bytes, one fewer than the frame carries. */
  lemma {:induction false} NextPrefixAfterEmptyFrame(n: byte, q: seq<byte>)
    requires n != Magic && n != ExtendedMarker
    ensures Step(Decoder(0, [], true), [n] + q) == Deliver(4 * n as int - 1, q)
  {
    ShortLengthPrefix(0, [], n, q);
    assert [] + ([n] + q) == [] + [n] + q;
  }

  // ----- Many calls -----

  /** Feeding chunks is one call on the first chunk, then the rest. */
  lemma {:induction false} FeedFirst(s: Decoder, chunks: seq<seq<byte>>)
    requires chunks != []
    ensures var r := Step(s, chunks[0]);
            Feed(s, chunks) == Trace(Feed(r.next, chunks[1..]).final, [r.event] + Feed(r.next, chunks[1..]).events)
  {
  }

  /** The bound on `length` in every state a connection can reach: with a
      prefix pending it is the initial 1 or the 0 left by a frame, and one
      prefix adds between `4 * 0 - 4` and `4 * (2^24 - 1) - 4` to that. */
  predicate LengthInRange(s: Decoder)
  {
    && (s.recalculateLength ==> s.length == 0 || s.length == 1)
    && -4 <= s.length <= 4 * (Pow256(3) - 1) - 3
  }

  /** One call keeps `length` in range. */
  lemma {:induction false} StepKeepsLengthInRange(s: Decoder, chunk: seq<byte>)
    requires LengthInRange(s)
    ensures LengthInRange(Step(s, chunk).next)
  {
    var buf := s.buffer + chunk;
    if s.recalculateLength && ReadLength(s.length, buf).Parsed? {
      var b := StripMagic(buf);
      if |b| >= 4 && b[0] == ExtendedMarker {
        assert |b[1..4]| == 3;
        assert LittleEndian(b[1..4]) < Pow256(3);
      } else {
        assert |b[..1]| == 1;
        assert LittleEndian(b[..1]) < Pow256(1) == 256;
      }
      assert Pow256(3) == 16777216;
    }
  }

  /** Every series of calls from a fresh decoder keeps `length` between -4
      and `4 * (2^24 - 1) - 3`, far inside the integers a JavaScript
      `number` holds exactly. */
  lemma {:induction false} FeedKeepsLengthInRange(s: Decoder, chunks: seq<seq<byte>>)
    requires LengthInRange(s)
    ensures LengthInRange(Feed(s, chunks).final)
    decreases |chunks|
  {
    if chunks != [] {
      var r := Step(s, chunks[0]);
      StepKeepsLengthInRange(s, chunks[0]);
      FeedFirst(s, chunks);
      FeedKeepsLengthInRange(r.next, chunks[1..]);
    }
  }

  /** A fresh decoder starts in range. */
  lemma {:induction false} InitLengthInRange()
    ensures LengthInRange(Init)
    ensures forall chunks: seq<seq<byte>> {:trigger Feed(Init, chunks)} ::
              LengthInRange(Feed(Init, chunks).final)
  {
    forall chunks: seq<seq<byte>> {
      FeedKeepsLengthInRange(Init, chunks);
    }
  }

  /** Once the buffer is longer than the expected `length` while payload is
      awaited, equality can never be reached again: every later call is
      silent and the decoder never reads another prefix. This is where a
      negative `length` or an overshooting chunk leaves it. */
  lemma {:induction false} OvershootIsPermanent(s: Decoder, chunks: seq<seq<byte>>)
    requires !s.recalculateLength && |s.buffer| > s.length
    ensures Feed(s, chunks).events == Silence(|chunks|)
    ensures !Feed(s, chunks).final.recalculateLength && Feed(s, chunks).final.length == s.length
    decreases |chunks|
  {
    if chunks != [] {
      var r := Step(s, chunks[0]);
      assert r == StepResult(Decoder(s.length, s.buffer + chunks[0], false), Silent);
      OvershootIsPermanent(r.next, chunks[1..]);
      assert Silence(|chunks|) == [Silent] + Silence(|chunks| - 1);
    }
  }

  /** Payload chunks that exactly fill the expected `length` are silent
      until the last, which emits everything buffered. */
  lemma {:induction false} AccumulateToExactLength(length: int, q: seq<byte>, chunks: seq<seq<byte>>)
    requires NonEmptyChunks(chunks)
    requires |q| + |Flatten(chunks)| == length
    ensures var r := Deliver(length, q);
            [r.event] + Feed(r.next, chunks).events == Silence(|chunks|) + [Emit(q + Flatten(chunks))]
    decreases |chunks|
  {
    var r := Deliver(length, q);
    if chunks == [] {
      assert Flatten(chunks) == [] && q + Flatten(chunks) == q;
      assert r.event == Emit(q);
      assert Feed(r.next, chunks).events == [];
      assert Silence(0) + [Emit(q)] == [Emit(q)];
    } else {
      var c := chunks[0];
      assert Flatten(chunks) == c + Flatten(chunks[1..]);
      assert r.next == Decoder(length, q, false) && r.event == Silent;
      assert Step(r.next, c) == Deliver(length, q + c);
      AccumulateToExactLength(length, q + c, chunks[1..]);
      assert (q + c) + Flatten(chunks[1..]) == q + Flatten(chunks);
      assert Silence(|chunks|) + [Emit(q + Flatten(chunks))]
          == [Silent] + (Silence(|chunks| - 1) + [Emit(q + Flatten(chunks))]);
    }
  }

  /** Payloads whose short length code is neither the extended marker nor
      the magic byte: the ones a client can send as the first frame and
      have decoded however the stream is split. */
  predicate ShortEncodable(p: seq<byte>)
  {
    |p| % 4 == 0 && |p| / 4 < 256 && |p| / 4 != ExtendedMarker as int && |p| / 4 != Magic as int
  }

  /** The bytes a client sends to open a connection with one short frame:
      magic byte, length code, payload. */
  function EncodeFirstShortFrame(p: seq<byte>): (r: seq<byte>)
    requires ShortEncodable(p)
    ensures |r| >= 2 && 4 * r[1] as int == |p|
  {
    [Magic, (|p| / 4) as byte] + p
  }

  /** Calls that made nothing visible carry no frame. */
  lemma {:induction false} SilenceHasNoFrames(k: nat)
    ensures Frames(Silence(k)) == []
    decreases k
  {
    if k > 0 {
      assert Silence(k)[1..] == Silence(k - 1);
      SilenceHasNoFrames(k - 1);
    }
  }

  /** Silence followed by one emitted frame carries exactly that frame. */
  lemma {:induction false} FramesOfSilenceThenEmit(k: nat, f: seq<byte>)
    ensures Frames(Silence(k) + [Emit(f)]) == [f]
    decreases k
  {
    if k > 0 {
      assert Silence(k) + [Emit(f)] == [Silent] + (Silence(k - 1) + [Emit(f)]);
      FramesOfSilenceThenEmit(k - 1, f);
    } else {
      assert Silence(0) + [Emit(f)] == [Emit(f)];
    }
  }

  lemma {:induction false} NonEmptyTail(chunks: seq<seq<byte>>)
    requires NonEmptyChunks(chunks) && chunks != []
    ensures NonEmptyChunks(chunks[1..])
  {
    forall i | 0 <= i < |chunks[1..]| ensures chunks[1..][i] != [] {
      assert chunks[1..][i] == chunks[i + 1];
    }
  }

  /** A call that parses a prefix expecting exactly the bytes still to come,
      followed by those bytes in any non-empty chunks: silent until the last
      call, which emits what followed the prefix. */
  lemma {:induction false} PrefixThenPayload(s: Decoder, chunks: seq<seq<byte>>, length: int, q: seq<byte>)
    requires NonEmptyChunks(chunks) && chunks != []
    requires Step(s, chunks[0]) == Deliver(length, q)
    requires |q| + |Flatten(chunks[1..])| == length
    ensures Feed(s, chunks).events == Silence(|chunks| - 1) + [Emit(q + Flatten(chunks[1..]))]
  {
    NonEmptyTail(chunks);
    FeedFirst(s, chunks);
    AccumulateToExactLength(length, q, chunks[1..]);
  }

  lemma {:induction false} FirstChunkStartsWithMagic(p: seq<byte>, chunks: seq<seq<byte>>)
    requires ShortEncodable(p) && NonEmptyChunks(chunks) && chunks != []
    requires Flatten(chunks) == EncodeFirstShortFrame(p)
    ensures chunks[0] == [Magic] || |chunks[0]| >= 2
  {
    assert Flatten(chunks) == chunks[0] + Flatten(chunks[1..]);
    assert chunks[0][0] == Flatten(chunks)[0];
  }

  /** When the first chunk is the magic byte alone, the later chunks start
      with the length code and carry the payload after it. */
  lemma {:induction false} MagicAloneShape(p: seq<byte>, chunks: seq<seq<byte>>)
    requires ShortEncodable(p) && NonEmptyChunks(chunks) && chunks != []
    requires Flatten(chunks) == EncodeFirstShortFrame(p) && chunks[0] == [Magic]
    ensures |chunks| >= 2 && NonEmptyChunks(chunks[1..])
    ensures chunks[1][0] as int == |p| / 4
    ensures p == chunks[1][1..] + Flatten(chunks[2..])
  {
    var n := (|p| / 4) as byte;
    var rest := chunks[1..];
    assert Flatten(chunks) == chunks[0] + Flatten(rest);
    assert EncodeFirstShortFrame(p) == [Magic] + ([n] + p);
    assert Flatten(rest) == Flatten(chunks)[1..] == [n] + p;
    NonEmptyTail(chunks);
    assert Flatten(rest) == rest[0] + Flatten(rest[1..]);
    assert rest[0] != [] && rest[0][0] == Flatten(rest)[0] == n;
    assert rest[0] == chunks[1] && rest[1..] == chunks[2..];
    assert p == Flatten(rest)[1..] == rest[0][1..] + Flatten(rest[1..]);
  }

  /** The round trip when the first chunk is the magic byte alone: that
      call only discards it and returns the decoder to its initial state. */
  lemma {:induction false} RoundTripMagicAlone(p: seq<byte>, chunks: seq<seq<byte>>)
    requires ShortEncodable(p) && NonEmptyChunks(chunks) && chunks != []
    requires Flatten(chunks) == EncodeFirstShortFrame(p) && chunks[0] == [Magic]
    ensures Feed(Init, chunks).events == Silence(|chunks| - 1) + [Emit(p)]
  {
    MagicAloneShape(p, chunks);
    var n := (|p| / 4) as byte;
    var rest := chunks[1..];
    var q := rest[0][1..];
    assert rest[0] == [] + [n] + q;
    assert Step(Init, chunks[0]) == StepResult(Init, Silent);
    FreshShortFrameExpects4n([], n, q);
    assert rest[1..] == chunks[2..];
    PrefixThenPayload(Init, rest, 4 * n as int, q);
    FeedFirst(Init, chunks);
    SilenceThenEmit(|rest| - 1, p);
  }

  /** One more silent call in front of silence and a frame. */
  lemma {:induction false} SilenceThenEmit(k: nat, f: seq<byte>)
    ensures Silence(k + 1) + [Emit(f)] == [Silent] + (Silence(k) + [Emit(f)])
  {
    assert Silence(k + 1) == [Silent] + Silence(k);
  }

  /** The round trip when the first chunk reaches the length code. */
  lemma {:induction false} RoundTripMagicAndCode(p: seq<byte>, chunks: seq<seq<byte>>)
    requires ShortEncodable(p) && NonEmptyChunks(chunks) && chunks != []
    requires Flatten(chunks) == EncodeFirstShortFrame(p) && |chunks[0]| >= 2
    ensures Feed(Init, chunks).events == Silence(|chunks| - 1) + [Emit(p)]
  {
    var n := (|p| / 4) as byte;
    var c := chunks[0];
    assert Flatten(chunks) == c + Flatten(chunks[1..]);
    assert c[0] == Flatten(chunks)[0] == Magic && c[1] == Flatten(chunks)[1] == n;
    var q := c[2..];
    assert c == [Magic] + [n] + q;
    FreshShortFrameExpects4n([Magic], n, q);
    assert p == Flatten(chunks)[2..] == q + Flatten(chunks[1..]);
    PrefixThenPayload(Init, chunks, 4 * n as int, q);
  }

  /** Round trip for the first frame of a connection: a fresh decoder fed the
      encoding of `p`, split into any non-empty chunks, is silent until the
      last chunk and then emits exactly `p`. */
  lemma {:induction false} FirstShortFrameRoundTrip(p: seq<byte>, chunks: seq<seq<byte>>)
    requires ShortEncodable(p) && NonEmptyChunks(chunks) && chunks != []
    requires Flatten(chunks) == EncodeFirstShortFrame(p)
    ensures Feed(Init, chunks).events == Silence(|chunks| - 1) + [Emit(p)]
    ensures Frames(Feed(Init, chunks).events) == [p]
  {
    FirstChunkStartsWithMagic(p, chunks);
    if |chunks[0]| >= 2 {
      RoundTripMagicAndCode(p, chunks);
    } else {
      RoundTripMagicAlone(p, chunks);
    }
    FramesOfSilenceThenEmit(|chunks| - 1, p);
  }

  /** The same stream delivered in one chunk emits `p` on that call. */
  lemma {:induction false} FirstShortFrameWhole(p: seq<byte>)
    requires ShortEncodable(p)
    ensures Feed(Init, [EncodeFirstShortFrame(p)]).events == [Emit(p)]
  {
    var chunks := [EncodeFirstShortFrame(p)];
    assert Flatten(chunks) == EncodeFirstShortFrame(p) by {
      assert chunks[1..] == [];
    }
    FirstShortFrameRoundTrip(p, chunks);
    assert Silence(0) + [Emit(p)] == [Emit(p)];
  }

  /** A first frame in the documented extended form, `0x7f`, the 24-bit
      length `v`, then `4v` payload bytes, delivered in one chunk, is lost:
      the buffer holds the top length byte as well, so it overshoots
      `4v - 3`, and every later call on the connection is silent too. */
  lemma {:induction false} ExtendedFirstFrameInOneChunkIsLost(m: seq<byte>, v: nat, p: seq<byte>, later: seq<seq<byte>>)
    requires MagicOrNothing(m) && v < Pow256(3) && |p| == 4 * v
    ensures var chunk := m + [ExtendedMarker] + ToLittleEndian(v, 3) + p;
            Feed(Init, [chunk] + later).events == Silence(1 + |later|)
  {
    var e := ToLittleEndian(v, 3);
    var chunk := m + [ExtendedMarker] + e + p;
    var chunks := [chunk] + later;
    FreshExtendedFrameExpects4vMinus3(m, v, p);
    var r := Step(Init, chunk);
    assert r == StepResult(Decoder(4 * v - 3, [e[2]] + p, false), Silent);
    assert chunks[0] == chunk && chunks[1..] == later;
    FeedFirst(Init, chunks);
    OvershootIsPermanent(r.next, later);
    assert Silence(1 + |later|) == [Silent] + Silence(|later|);
  }

  /** The same extended frame split so that the first chunk ends `4v - 4`
      bytes into the payload: that call emits a garbled frame, the top
      length byte followed by the payload truncated by four bytes. */
  lemma {:induction false} ExtendedFirstFrameSplitIsGarbled(m: seq<byte>, v: nat, q: seq<byte>)
    requires MagicOrNothing(m) && 1 <= v < Pow256(3) && |q| == 4 * v - 4
    ensures var e := ToLittleEndian(v, 3);
            Step(Init, m + [ExtendedMarker] + e + q)
              == StepResult(Decoder(0, [e[2]] + q, true), Emit([e[2]] + q))
  {
    FreshExtendedFrameExpects4vMinus3(m, v, q);
  }

  /** The magic byte, length code `0xef` and 956 payload bytes in one
      chunk: one call strips the magic byte and reads `0xef` as the code. */
  lemma {:induction false} MagicLengthCodeWhole(p: seq<byte>)
    requires |p| == 4 * Magic as int
    ensures Step(Init, [Magic] + [Magic] + p) == StepResult(Decoder(0, p, true), Emit(p))
  {
    ShortLengthPrefix(1, [Magic], Magic, p);
    assert Init.buffer + ([Magic] + [Magic] + p) == [Magic] + [Magic] + p;
  }

  /** The same bytes after the magic byte came alone: the call strips the
      second `0xef` as if it were the magic byte and reads the payload's
      first byte as a short length code, whose `4n` expected bytes never
      match the 955 that are left. */
  lemma {:induction false} MagicLengthCodeAfterLoneMagic(p: seq<byte>)
    requires |p| == 4 * Magic as int && p[0] != ExtendedMarker
    ensures Step(Init, [Magic] + p) == StepResult(Decoder(4 * p[0] as int, p[1..], false), Silent)
  {
    var n := p[0];
    var rest := p[1..];
    assert [Magic] + p == [Magic] + [n] + rest;
    FreshShortFrameExpects4n([Magic], n, rest);
    assert |rest| == 955 && 4 * n as int != 955;
  }

  /** The exception to the above: a payload starting `7f ef 00 00` after
      the lone magic byte reads as an extended header for `L = 239`, whose
      `4L - 3 = 953` expected bytes are exactly what is left from the `00`. */
  lemma {:induction false} MagicLengthCodeAfterLoneMagicExtended(z: seq<byte>)
    requires |z| == 952
    ensures Step(Init, [Magic] + ([ExtendedMarker, Magic, 0x00, 0x00] + z))
         == StepResult(Decoder(0, [0x00] + z, true), Emit([0x00] + z))
  {
    var e := ToLittleEndian(239, 3);
    OneByteEncoding(239);
    var buf := [Magic] + ([ExtendedMarker, Magic, 0x00, 0x00] + z);
    assert buf == [Magic] + [ExtendedMarker] + e + z;
    FreshExtendedFrameExpects4vMinus3([Magic], 239, z);
    assert [e[2]] + z == [0x00] + z && |[0x00] + z| == 4 * 239 - 3;
  }

  /** A value below 256 encodes as itself followed by two zero bytes. */
  lemma {:induction false} OneByteEncoding(v: nat)
    requires v < 256
    ensures ToLittleEndian(v, 3) == [v as byte, 0x00, 0x00]
  {
    assert ToLittleEndian(0, 1) == [0x00];
    assert ToLittleEndian(0, 2) == [0x00, 0x00];
  }

  /** Length code `0xef` is a short code to the decoder, but only when it
      arrives in the same chunk as the magic byte: in one chunk the payload
      comes out, while the magic byte alone followed by the rest loses it. */
  lemma {:induction false} MagicLengthCodeDependsOnSplit(p: seq<byte>)
    requires |p| == 4 * Magic as int && p[0] != ExtendedMarker
    ensures Feed(Init, [[Magic] + [Magic] + p]).events == [Emit(p)]
    ensures Feed(Init, [[Magic], [Magic] + p]).events == [Silent, Silent]
  {
    var whole: seq<seq<byte>> := [[Magic] + [Magic] + p];
    MagicLengthCodeWhole(p);
    assert whole[1..] == [];
    FeedFirst(Init, whole);

    var split: seq<seq<byte>> := [[Magic], [Magic] + p];
    MagicOnlyIsDiscarded(Init, split[0]);
    MagicLengthCodeAfterLoneMagic(p);
    assert split[1..][0] == split[1] && split[1..][1..] == [];
    FeedFirst(Init, split);
    FeedFirst(Init, split[1..]);
  }

  // ----- Concrete streams -----

  /** The magic byte, length code 2 and eight payload bytes in one chunk
      give exactly that payload. */
  lemma {:induction false} OneShortFrameInOneChunk()
    ensures Feed(Init, [[0xef, 0x02, 0xAA, 0xBB, 0xCC, 0xDD, 0x11, 0x22, 0x33, 0x44]]).events
         == [Emit([0xAA, 0xBB, 0xCC, 0xDD, 0x11, 0x22, 0x33, 0x44])]
  {
    var p: seq<byte> := [0xAA, 0xBB, 0xCC, 0xDD, 0x11, 0x22, 0x33, 0x44];
    assert EncodeFirstShortFrame(p) == [0xef, 0x02, 0xAA, 0xBB, 0xCC, 0xDD, 0x11, 0x22, 0x33, 0x44];
    FirstShortFrameWhole(p);
  }

  /** An extended prefix for one word (`0x7f 01 00 00`) and four payload
      bytes, split after the second byte: the first call waits, the second
      expects one byte but holds five, so nothing is ever emitted. */
  lemma {:induction false} ExtendedFrameInTwoChunksIsSilent()
    ensures Feed(Init, [[0x7f, 0x01], [0x00, 0x00, 0x99, 0x88, 0x77, 0x66]])
         == Trace(Decoder(1, [0x00, 0x99, 0x88, 0x77, 0x66], false), [Silent, Silent])
  {
    var chunks: seq<seq<byte>> := [[0x7f, 0x01], [0x00, 0x00, 0x99, 0x88, 0x77, 0x66]];
    var s1 := Decoder(1, [0x7f, 0x01], true);
    var s2 := Decoder(1, [0x00, 0x99, 0x88, 0x77, 0x66], false);
    ExtendedTwoChunkCalls();
    assert chunks[0] == [0x7f, 0x01] && chunks[1..][0] == [0x00, 0x00, 0x99, 0x88, 0x77, 0x66];
    assert chunks[1..][1..] == [];
    FeedFirst(Init, chunks);
    FeedFirst(s1, chunks[1..]);
  }

  /** The same stream split as `7f 01`, `00 00`, `99 88 77 66`: the second
      call expects one byte and holds exactly the top length byte, so it
      emits the one-byte frame `00`; the third call reads `00` as a length
      code, making `length` negative, and emits nothing. */
  lemma {:induction false} ExtendedFrameInThreeChunksEmitsLengthByte()
    ensures Feed(Init, [[0x7f, 0x01], [0x00, 0x00], [0x99, 0x88, 0x77, 0x66]]).events
         == [Silent, Emit([0x00]), Silent]
  {
    var chunks: seq<seq<byte>> := [[0x7f, 0x01], [0x00, 0x00], [0x99, 0x88, 0x77, 0x66]];
    var s1 := Decoder(1, [0x7f, 0x01], true);
    var s2 := Decoder(0, [0x00], true);
    ExtendedThreeChunkCalls();
    assert chunks[0] == [0x7f, 0x01] && chunks[1..][0] == [0x00, 0x00];
    assert chunks[1..][1..][0] == [0x99, 0x88, 0x77, 0x66] && chunks[1..][1..][1..] == [];
    FeedFirst(Init, chunks);
    FeedFirst(s1, chunks[1..]);
    FeedFirst(s2, chunks[1..][1..]);
  }

  /** The calls of the stream above, one at a time. */
  lemma {:induction false} ExtendedThreeChunkCalls()
    ensures Step(Init, [0x7f, 0x01]) == StepResult(Decoder(1, [0x7f, 0x01], true), Silent)
    ensures Step(Decoder(1, [0x7f, 0x01], true), [0x00, 0x00])
         == StepResult(Decoder(0, [0x00], true), Emit([0x00]))
    ensures Step(Decoder(0, [0x00], true), [0x99, 0x88, 0x77, 0x66])
         == StepResult(Decoder(-1, [0x99, 0x88, 0x77, 0x66], false), Silent)
  {
    assert [0x7f, 0x01] == [] + [ExtendedMarker] + [0x01 as byte];
    IncompleteExtendedPrefixWaits(Init, [0x7f, 0x01], [], [0x01]);
    ExtendedTopByteAlone();
    LengthCodeZeroAfterFrame();
  }

  /** `7f 01` then `00 00`: the whole prefix and nothing else, so the kept
      top length byte fills the `4 - 3 = 1` expected bytes. */
  lemma {:induction false} ExtendedTopByteAlone()
    ensures Step(Decoder(1, [0x7f, 0x01], true), [0x00, 0x00])
         == StepResult(Decoder(0, [0x00], true), Emit([0x00]))
  {
    var e := ToLittleEndian(1, 3);
    OneByteEncoding(1);
    ExtendedLengthPrefix(1, [], 1, []);
    assert [0x7f, 0x01] + [0x00, 0x00] == [] + [ExtendedMarker] + e + [];
  }

  /** The kept `00` read as a length code against `length = 0`. */
  lemma {:induction false} LengthCodeZeroAfterFrame()
    ensures Step(Decoder(0, [0x00], true), [0x99, 0x88, 0x77, 0x66])
         == StepResult(Decoder(-1, [0x99, 0x88, 0x77, 0x66], false), Silent)
  {
    var payload: seq<byte> := [0x99, 0x88, 0x77, 0x66];
    ShortLengthPrefix(0, [], 0x00, payload);
    assert [0x00] + payload == [] + [0x00 as byte] + payload;
  }

  /** The two calls of `ExtendedFrameInTwoChunksIsSilent`, one at a time. */
  lemma {:induction false} ExtendedTwoChunkCalls()
    ensures Step(Init, [0x7f, 0x01]) == StepResult(Decoder(1, [0x7f, 0x01], true), Silent)
    ensures Step(Decoder(1, [0x7f, 0x01], true), [0x00, 0x00, 0x99, 0x88, 0x77, 0x66])
         == StepResult(Decoder(1, [0x00, 0x99, 0x88, 0x77, 0x66], false), Silent)
  {
    assert [0x7f, 0x01] == [] + [ExtendedMarker] + [0x01 as byte];
    IncompleteExtendedPrefixWaits(Init, [0x7f, 0x01], [], [0x01]);
    var e := ToLittleEndian(1, 3);
    OneByteEncoding(1);
    var payload: seq<byte> := [0x99, 0x88, 0x77, 0x66];
    ExtendedLengthPrefix(1, [], 1, payload);
    assert [0x7f, 0x01] + [0x00, 0x00, 0x99, 0x88, 0x77, 0x66] == [] + [ExtendedMarker] + e + payload;
    assert [e[2]] + payload == [0x00, 0x99, 0x88, 0x77, 0x66];
  }

  /** Two short frames sent back to back, one per chunk: the first comes
      out, but the second call reads its length from the first frame's
      leading byte `0xAA`, expects 679 bytes and emits nothing. */
  lemma {:induction false} SecondShortFrameIsMisread()
    ensures var f: seq<byte> := [0xAA, 0xBB, 0xCC, 0xDD, 0x11, 0x22, 0x33, 0x44];
            Feed(Init, [[0xef, 0x02] + f, [0x02] + f]).events == [Emit(f), Silent]
  {
    var f: seq<byte> := [0xAA, 0xBB, 0xCC, 0xDD, 0x11, 0x22, 0x33, 0x44];
    var chunks := [[0xef, 0x02] + f, [0x02] + f];
    FreshShortFrameExpects4n([Magic], 0x02, f);
    assert [Magic] + [0x02 as byte] + f == chunks[0];
    var s1 := Decoder(0, f, true);
    assert Step(Init, chunks[0]) == StepResult(s1, Emit(f));
    NextPrefixComesFromOldFrame(f, chunks[1]);
    assert |f[1..] + chunks[1]| == 16;
    assert Step(s1, chunks[1]).event == Silent;
    assert chunks[1..][1..] == [];
  }

  /** An empty frame followed by a frame of code 2: seven payload bytes are
      enough for the decoder, which emits them without the eighth; all eight
      in one chunk overshoot and nothing is emitted. */
  lemma {:induction false} FrameAfterEmptyFrameLosesLastByte()
    ensures Feed(Init, [[0xef, 0x00], [0x02, 1, 2, 3, 4, 5, 6, 7]]).events == [Emit([]), Emit([1, 2, 3, 4, 5, 6, 7])]
    ensures Feed(Init, [[0xef, 0x00], [0x02, 1, 2, 3, 4, 5, 6, 7, 8]]).events == [Emit([]), Silent]
  {
    ZeroLengthCodeTwice();
    CodeTwoAfterEmptyFrame();
    AfterEmptyFrame([0x02, 1, 2, 3, 4, 5, 6, 7], Emit([1, 2, 3, 4, 5, 6, 7]));
    AfterEmptyFrame([0x02, 1, 2, 3, 4, 5, 6, 7, 8], Silent);
  }

  /** The code-2 frames above, one call after the empty frame. */
  lemma {:induction false} CodeTwoAfterEmptyFrame()
    ensures Step(Decoder(0, [], true), [0x02, 1, 2, 3, 4, 5, 6, 7]).event == Emit([1, 2, 3, 4, 5, 6, 7])
    ensures Step(Decoder(0, [], true), [0x02, 1, 2, 3, 4, 5, 6, 7, 8]).event == Silent
  {
    var short: seq<byte> := [1, 2, 3, 4, 5, 6, 7];
    var full: seq<byte> := [1, 2, 3, 4, 5, 6, 7, 8];
    NextPrefixAfterEmptyFrame(0x02, short);
    NextPrefixAfterEmptyFrame(0x02, full);
    assert [0x02 as byte] + short == [0x02, 1, 2, 3, 4, 5, 6, 7];
    assert [0x02 as byte] + full == [0x02, 1, 2, 3, 4, 5, 6, 7, 8];
  }

  /** Two calls: the empty frame, then `c` with the given event. */
  lemma {:induction false} AfterEmptyFrame(c: seq<byte>, ev: Event)
    requires Step(Init, [0xef, 0x00]) == StepResult(Decoder(0, [], true), Emit([]))
    requires Step(Decoder(0, [], true), c).event == ev
    ensures Feed(Init, [[0xef, 0x00], c]).events == [Emit([]), ev]
  {
    var s1 := Decoder(0, [], true);
    var chunks: seq<seq<byte>> := [[0xef, 0x00], c];
    assert chunks[0] == [0xef, 0x00] && chunks[1..] == [c] && chunks[1..][1..] == [];
    FeedFirst(Init, chunks);
    FeedFirst(s1, chunks[1..]);
  }

  /** Length code 0 gives an empty frame and `length = 0`; a further length
      code 0 then gives `length = -1`. */
  lemma {:induction false} ZeroLengthCodeTwice()
    ensures Step(Init, [0xef, 0x00]) == StepResult(Decoder(0, [], true), Emit([]))
    ensures Step(Decoder(0, [], true), [0x00]) == StepResult(Decoder(-1, [], false), Silent)
  {
    FreshShortFrameExpects4n([Magic], 0x00, []);
    assert [Magic] + [0x00 as byte] + [] == [0xef, 0x00];
    ShortLengthPrefix(0, [], 0x00, []);
    assert [] + [0x00 as byte] + [] == [] + [0x00];
  }

  /** After those two calls the decoder is silent forever. */
  lemma {:induction false} NegativeLengthIsPermanent(later: seq<seq<byte>>)
    ensures Feed(Init, [[0xef, 0x00], [0x00]] + later).events == [Emit([]), Silent] + Silence(|later|)
  {
    var all: seq<seq<byte>> := [[0xef, 0x00], [0x00]] + later;
    var s1 := Decoder(0, [], true);
    var s2 := Decoder(-1, [], false);
    ZeroLengthCodeTwice();
    assert all[0] == [0xef, 0x00] && all[1..][0] == [0x00] && all[1..][1..] == later;
    FeedFirst(Init, all);
    assert Feed(Init, all).events == [Emit([])] + Feed(s1, all[1..]).events;
    FeedFirst(s1, all[1..]);
    assert Feed(s1, all[1..]).events == [Silent] + Feed(s2, later).events;
    OvershootIsPermanent(s2, later);
    assert [Emit([])] + ([Silent] + Silence(|later|)) == [Emit([]), Silent] + Silence(|later|);
  }
}

=== FILE: bytes.dfy ===
/** Byte sequences as the transport code sees them through Node's `Buffer`:
    concatenation, slicing from the front, and unsigned little-endian reads. */
module Bytes {

  /** One octet of a `Buffer`. */
  newtype byte = x: int | 0 <= x < 256

  /** 256 to the power `w`: one more than the largest unsigned `w`-byte value. */
  function Pow256(w: nat): (r: nat)
    ensures r >= 1
  {
    if w == 0 then 1 else 256 * Pow256(w - 1)
  }

  /** The unsigned little-endian value of `b` (least significant byte first),
      which is what `buf.readUIntLE(offset, |b|)` returns for the bytes `b`
      starting at `offset`. */
  function LittleEndian(b: seq<byte>): (r: nat)
    ensures r < Pow256(|b|)
  {
    if b == [] then 0 else b[0] as int + 256 * LittleEndian(b[1..])
  }

  /** The `width`-byte little-endian encoding of `v`. */
  function ToLittleEndian(v: nat, width: nat): (b: seq<byte>)
    requires v < Pow256(width)
    ensures |b| == width
  {
    if width == 0 then []
    else
      assert v / 256 < Pow256(width - 1);
      [(v % 256) as byte] + ToLittleEndian(v / 256, width - 1)
  }

  /** Reading back an encoding gives the encoded value. */
  lemma {:induction false} LittleEndianOfEncoding(v: nat, width: nat)
    requires v < Pow256(width)
    ensures LittleEndian(ToLittleEndian(v, width)) == v
  {
    if width > 0 {
      var b := ToLittleEndian(v, width);
      assert b[1..] == ToLittleEndian(v / 256, width - 1);
      LittleEndianOfEncoding(v / 256, width - 1);
    }
  }

  /** Encoding the value read from `b` at `b`'s width gives `b` back. */
  lemma {:induction false} EncodingOfLittleEndian(b: seq<byte>)
    ensures LittleEndian(b) < Pow256(|b|)
    ensures ToLittleEndian(LittleEndian(b), |b|) == b
  {
    if b != [] {
      var v := LittleEndian(b);
      var x := LittleEndian(b[1..]);
      assert v == b[0] as int + 256 * x;
      assert v % 256 == b[0] as int && v / 256 == x;
      EncodingOfLittleEndian(b[1..]);
      assert ToLittleEndian(v, |b|) == [b[0]] + b[1..];
    }
  }

  /** The bytes of `chunks` one after the other. */
  function Flatten(chunks: seq<seq<byte>>): (r: seq<byte>)
  {
    if chunks == [] then [] else chunks[0] + Flatten(chunks[1..])
  }

  /** No chunk is empty: a TCP socket never delivers a zero-byte `data` event. */
  predicate NonEmptyChunks(chunks: seq<seq<byte>>)
  {
    forall i :: 0 <= i < |chunks| ==> chunks[i] != []
  }

  /** `a` is what remains of `b` after dropping some bytes from its front. */
  predicate IsSuffix(a: seq<byte>, b: seq<byte>)
  {
    |a| <= |b| && a == b[|b| - |a|..]
  }

  /** Dropping from the front twice is dropping from the front once, and
      appending the same bytes after both sides keeps the relation. */
  lemma {:induction false} SuffixOfAppend(a: seq<byte>, b: seq<byte>, tail: seq<byte>)
    requires IsSuffix(a, b)
    ensures IsSuffix(a + tail, b + tail)
  {
    assert (b + tail)[|b| - |a|..] == b[|b| - |a|..] + tail;
  }

  lemma {:induction false} SuffixTransitive(a: seq<byte>, b: seq<byte>, c: seq<byte>)
    requires IsSuffix(a, b) && IsSuffix(b, c)
    ensures IsSuffix(a, c)
  {
    assert c[|c| - |b|..][|b| - |a|..] == c[|c| - |a|..];
  }

  /** If `a` is left of `mid` plus the later chunks, and `mid` is left of
      `buf` plus the first chunk, then `a` is left of `buf` plus all chunks. */
  lemma {:induction false} SuffixThroughChunk(a: seq<byte>, mid: seq<byte>, buf: seq<byte>, chunks: seq<seq<byte>>)
    requires chunks != []
    requires IsSuffix(a, mid + Flatten(chunks[1..]))
    requires IsSuffix(mid, buf + chunks[0])
    ensures IsSuffix(a, buf + Flatten(chunks))
  {
    var rest := Flatten(chunks[1..]);
    assert Flatten(chunks) == chunks[0] + rest;
    assert buf + Flatten(chunks) == (buf + chunks[0]) + rest;
    SuffixOfAppend(mid, buf + chunks[0], rest);
    SuffixTransitive(a, mid + rest, (buf + chunks[0]) + rest);
  }
}

=== FILE: negotiation.dfy ===
/** The `socket.on('data')` closure of `TCPConnection.start`: the first
    chunk of a connection picks its transport, and every later chunk is
    either handed to that transport unchanged or answered with a close. */
module Negotiation {
  import opened Bytes
  import opened Wrappers
  import Abridged
  import AbridgedProperties

  /** The variables the closure captures: whether negotiation is over, the
      negotiation buffer, and the chosen transport (`None` for `undefined`). */
  datatype Connection = Connection(negotiationFinished: bool, buffer: seq<byte>, transport: Option<Abridged.Decoder>)

  /** A freshly accepted socket. */
  const Init := Connection(false, [], None)

  /** What a chunk makes the closure do to the socket and the transport:
      nothing, feed bytes to the transport, or end the socket. */
  datatype Action = Idle | Forward(bytes: seq<byte>) | Close

  /** The closure's state after one chunk, its action, and what the
      transport made visible (`Silent` when nothing was fed). */
  datatype Reaction = Reaction(next: Connection, action: Action, event: Abridged.Event)

  /** The transport registry: the abridged magic byte selects a fresh
      abridged decoder; any other first byte, or none, selects nothing. */
  function SelectTransport(buf: seq<byte>): (r: Option<Abridged.Decoder>)
    ensures r.Some? <==> Abridged.StartsWith(buf, Abridged.Magic)
    ensures r.Some? ==> r.value == Abridged.Init
  {
    if Abridged.StartsWith(buf, Abridged.Magic) then Some(Abridged.Init) else None
  }

  /** Feeds `bytes` to `d` and reports the transport's new state. */
  function Relay(c: Connection, d: Abridged.Decoder, bytes: seq<byte>): (r: Reaction)
  {
    var out := Abridged.Step(d, bytes);
    Reaction(c.(negotiationFinished := true, transport := Some(out.next)), Forward(bytes), out.event)
  }

  /** One `data` event carrying `data`. */
  function Step(c: Connection, data: seq<byte>): (r: Reaction)
    // negotiation is over after any chunk, and its buffer is never touched again
    ensures r.next.negotiationFinished
    ensures c.negotiationFinished ==> r.next.buffer == c.buffer
    ensures !c.negotiationFinished ==> r.next.buffer == c.buffer + data
    // a close happens exactly when negotiation is over and found no transport
    ensures r.action.Close? <==> c.negotiationFinished && c.transport.None?
    // bytes are forwarded exactly when a transport is there to take them
    ensures r.action.Forward? <==> r.next.transport.Some?
    // once chosen, the transport receives each chunk verbatim
    ensures c.negotiationFinished && c.transport.Some? ==>
              r.action == Forward(data) && r.next.transport == Some(Abridged.Step(c.transport.value, data).next)
    // whenever nothing is forwarded nothing is decoded and the choice stays
    ensures !r.action.Forward? ==> r.event == Abridged.Silent && r.next.transport == c.transport
  {
    if !c.negotiationFinished then
      var buf := c.buffer + data;
      var chosen := SelectTransport(buf);
      var transport := if chosen.Some? then chosen else c.transport;
      if transport.Some? then Relay(c.(buffer := buf), transport.value, buf)
      else Reaction(c.(negotiationFinished := true, buffer := buf), Idle, Abridged.Silent)
    else if c.transport.Some? then Relay(c, c.transport.value, data)
    else Reaction(c, Close, Abridged.Silent)
  }

  /** The closure's state after a series of chunks, with one action and one
      event per chunk. */
  datatype Log = Log(final: Connection, actions: seq<Action>, events: seq<Abridged.Event>)

  /** Successive `data` events carrying `chunks` in order. */
  function Run(c: Connection, chunks: seq<seq<byte>>): (l: Log)
    ensures |l.actions| == |chunks| && |l.events| == |chunks|
    ensures chunks != [] ==> l.final.negotiationFinished
    // the negotiation buffer only ever holds what arrived before negotiation ended
    ensures l.final.buffer == if c.negotiationFinished || chunks == [] then c.buffer else c.buffer + chunks[0]
    decreases |chunks|
  {
    if chunks == [] then Log(c, [], [])
    else
      var r := Step(c, chunks[0]);
      var l := Run(r.next, chunks[1..]);
      Log(l.final, [r.action] + l.actions, [r.event] + l.events)
  }

  lemma {:induction false} RunFirst(c: Connection, chunks: seq<seq<byte>>)
    requires chunks != []
    ensures var r := Step(c, chunks[0]);
            var l := Run(r.next, chunks[1..]);
            Run(c, chunks) == Log(l.final, [r.action] + l.actions, [r.event] + l.events)
  {
  }

  /** The first chunk of a connection: a decoder exists afterwards exactly
      when the chunk starts with the magic byte, and it has then been fed
      the entire chunk, magic byte included; negotiation ends either way. */
  lemma {:induction false} FirstChunkChoosesTransport(data: seq<byte>)
    ensures var r := Step(Init, data);
            && r.next.negotiationFinished
            && r.next.buffer == data
            && (r.next.transport.Some? <==> Abridged.StartsWith(data, Abridged.Magic))
            && (Abridged.StartsWith(data, Abridged.Magic) ==>
                  r.action == Forward(data)
                  && r.next.transport == Some(Abridged.Step(Abridged.Init, data).next)
                  && r.event == Abridged.Step(Abridged.Init, data).event)
            && (!Abridged.StartsWith(data, Abridged.Magic) ==> r.action == Idle && r.event == Abridged.Silent)
  {
    assert Init.buffer + data == data;
  }

  /** With a transport chosen, every later chunk reaches it unchanged and in
      order: the connection's events are exactly the decoder's own. */
  lemma {:induction false} ForwardingIsTransparent(c: Connection, chunks: seq<seq<byte>>)
    requires c.negotiationFinished && c.transport.Some?
    ensures var l := Run(c, chunks);
            var t := Abridged.Feed(c.transport.value, chunks);
            && l.events == t.events
            && l.final.transport == Some(t.final)
            && forall i :: 0 <= i < |chunks| ==> l.actions[i] == Forward(chunks[i])
    decreases |chunks|
  {
    if chunks != [] {
      var r := Step(c, chunks[0]);
      RunFirst(c, chunks);
      AbridgedProperties.FeedFirst(c.transport.value, chunks);
      ForwardingIsTransparent(r.next, chunks[1..]);
      var l := Run(c, chunks);
      forall i | 0 <= i < |chunks| ensures l.actions[i] == Forward(chunks[i]) {
        if i > 0 {
          assert l.actions[i] == Run(r.next, chunks[1..]).actions[i - 1];
          assert chunks[1..][i - 1] == chunks[i];
        }
      }
    }
  }

  /** With no transport chosen, every later chunk closes the socket, nothing
      is decoded and the closure's state does not change. */
  lemma {:induction false} UnknownTransportCloses(c: Connection, chunks: seq<seq<byte>>)
    requires c.negotiationFinished && c.transport.None?
    ensures var l := Run(c, chunks);
            && l.final == c
            && (forall i :: 0 <= i < |chunks| ==> l.actions[i] == Close)
            && l.events == Abridged.Silence(|chunks|)
    decreases |chunks|
  {
    if chunks != [] {
      assert Step(c, chunks[0]) == Reaction(c, Close, Abridged.Silent);
      RunFirst(c, chunks);
      UnknownTransportCloses(c, chunks[1..]);
      assert Abridged.Silence(|chunks|) == [Abridged.Silent] + Abridged.Silence(|chunks| - 1);
      var l := Run(c, chunks);
      forall i | 0 <= i < |chunks| ensures l.actions[i] == Close {
        if i > 0 {
          assert l.actions[i] == Run(c, chunks[1..]).actions[i - 1];
        }
      }
    }
  }

  /** A connection whose first chunk does not start with the magic byte gets
      no transport: its first chunk does nothing, every later chunk closes
      the socket, and no frame is ever produced. */
  lemma {:induction false} UnrecognisedConnection(chunks: seq<seq<byte>>)
    requires chunks != [] && !Abridged.StartsWith(chunks[0], Abridged.Magic)
    ensures var l := Run(Init, chunks);
            && l.actions[0] == Idle
            && (forall i :: 1 <= i < |chunks| ==> l.actions[i] == Close)
            && l.final.transport.None?
            && Abridged.Frames(l.events) == []
  {
    FirstChunkChoosesTransport(chunks[0]);
    var r := Step(Init, chunks[0]);
    RunFirst(Init, chunks);
    UnknownTransportCloses(r.next, chunks[1..]);
    var l := Run(Init, chunks);
    forall i | 1 <= i < |chunks| ensures l.actions[i] == Close {
      assert l.actions[i] == Run(r.next, chunks[1..]).actions[i - 1];
    }
    assert l.events == Abridged.Silence(|chunks|) by {
      assert l.events == [Abridged.Silent] + Abridged.Silence(|chunks| - 1);
    }
    AbridgedProperties.SilenceHasNoFrames(|chunks|);
  }

  /** A connection whose first chunk starts with the magic byte behaves, in
      what it decodes, exactly like a fresh decoder fed all its chunks, and
      every chunk is forwarded whole. */
  lemma {:induction false} RecognisedConnection(chunks: seq<seq<byte>>)
    requires chunks != [] && Abridged.StartsWith(chunks[0], Abridged.Magic)
    ensures var l := Run(Init, chunks);
            && l.events == Abridged.Feed(Abridged.Init, chunks).events
            && l.final.transport == Some(Abridged.Feed(Abridged.Init, chunks).final)
            && forall i :: 0 <= i < |chunks| ==> l.actions[i] == Forward(chunks[i])
  {
    FirstChunkChoosesTransport(chunks[0]);
    var r := Step(Init, chunks[0]);
    RunFirst(Init, chunks);
    AbridgedProperties.FeedFirst(Abridged.Init, chunks);
    ForwardingIsTransparent(r.next, chunks[1..]);
    var l := Run(Init, chunks);
    forall i | 0 <= i < |chunks| ensures l.actions[i] == Forward(chunks[i]) {
      if i > 0 {
        assert l.actions[i] == Run(r.next, chunks[1..]).actions[i - 1];
        assert chunks[1..][i - 1] == chunks[i];
      }
    }
  }

  /** End to end: a client that opens with the magic byte, a short length
      code and its payload, however the network splits those bytes, gets
      exactly that payload out as the connection's one frame. */
  lemma {:induction false} ConnectionDeliversFirstShortFrame(p: seq<byte>, chunks: seq<seq<byte>>)
    requires AbridgedProperties.ShortEncodable(p) && NonEmptyChunks(chunks) && chunks != []
    requires Flatten(chunks) == AbridgedProperties.EncodeFirstShortFrame(p)
    ensures Abridged.Frames(Run(Init, chunks).events) == [p]
  {
    AbridgedProperties.FirstChunkStartsWithMagic(p, chunks);
    assert Flatten(chunks) == chunks[0] + Flatten(chunks[1..]);
    assert chunks[0][0] == Flatten(chunks)[0];
    RecognisedConnection(chunks);
    AbridgedProperties.FirstShortFrameRoundTrip(p, chunks);
  }
}

=== FILE: wrappers.dfy ===
/** A value that may be absent, used where the source holds `undefined`. */
module Wrappers {

  datatype Option<+T> = None | Some(value: T)
}
